=== FILE: README.md ===
# autotests-runner core, modelled in Dafny

This project models the three parts of the autotests runner that decide what it
sends and what it keeps.

- **Launcher page** (`docs/app.js`):
  - Correlating a workflow dispatch with the CI run it started (`waitForRun`).
  - The table of tracked runs and their polling timers (`registerRun`,
    `startPolling` and its `tick`, `clearRuns`).
  - The status badge and label of a run.
  - Automation detection and the search filter of the test list.
  - The settings saved to local storage.
- **Bulk-run script** (`scripts/testiny-bulk-run.js`):
  - The link to the CI run and the generated test-run title.
  - Splitting the mapping requests into batches of 200.
  - The result loop over the tests and the exit code of the whole script.
- **Snapshot sync script** (`scripts/sync-testiny.js`):
  - The offset-pagination loop shared by `fetchTests`, `fetchTestFolders` and
    `fetchTestFolderMappings`.
  - The `totalCount` fallback of the projects payload.

Every network answer is an input to the model:
- the list of runs returned by the j-th query;
- each poll answer;
- the k-th page of a listing;
- the id the create request returns;
- the Playwright verdict for each test.

A failed request is a `Failure` value. Timers are abstract handles: `setInterval`
hands out a fresh one, `clearInterval` removes it from the set of live ones, and
each firing is an explicit `RunTable.Tick` call. The clock is also an input:
`LocalTime` holds the fields of a `Date`.

Files:
- `common.dfy`: `Option` and `Result`.
- `strings.dfy`: the JavaScript string built-ins the core relies on (`toLowerCase`, `trim`,
  `includes`, `String(n)`, `padStart(2, '0')`, `slice(-2)`).
- `correlation.dfy`: `waitForRun`.
- `run_tracking.dfy`: the run table as a class.
- `catalog.dfy`: automation and search.
- `settings.dfy`: the stored settings.
- `bulk_run.dfy`: the bulk-run script.
- `pagination.dfy`: the sync script.

An answer to a poll can arrive after `clearRuns` has emptied the table. The
source then spreads it over `undefined` and files a record that has only the
four polled fields, with no title and no timer. `RunTable.Tick` models this
case as written; it does not exclude it.

## Model

| member | source | states |
|---|---|---|
| Correlation.FirstCreatedSince | docs/app.js:326 | `.find` returns the index of a run created no earlier than 1500 ms before the dispatch, and every run before it in list order was created earlier; `None` means no run in the list qualifies |
| Correlation.FirstCreatedSinceUnique | docs/app.js:326 | a qualifying run with no qualifying run before it is exactly the one the search returns |
| Correlation.WaitForRun | docs/app.js:319-330 | at most 10 queries; every query before the last was answered and matched nothing; the result is the first qualifying run of the last answer if it has one; it is "not found" exactly when all 10 answers matched nothing; a failed query ends the wait with that query's error |
| RunTracking.StatusClass | docs/app.js:385-390 | the badge is queued iff the status is `queued`, running iff `in_progress`, success iff `completed` with conclusion `success`; its CSS class is `queued`, `running` or `success` in those cases and `failure` exactly in all others |
| RunTracking.StatusLabel | docs/app.js:392-397 | the label for each status: the conclusion, or `completed` when the conclusion is falsy, for a finished run; the raw status for an unknown one |
| RunTracking.BadgeMatchesLabel | docs/app.js:371-372 | the badge and the label shown together agree: a success badge reads `success`, a finished run has the success badge iff its label reads `success`, and an empty label occurs only for an empty status |
| RunTracking.PollUpdate | docs/app.js:404-410 | the spread takes status, conclusion, html_url and created_at from the answer and keeps every other field of the previous record |
| RunTracking.RunTable.constructor | docs/app.js:46 | the page starts with no runs and no live timers |
| RunTracking.RunTable.StartPolling | docs/app.js:423-428 | a fresh handle, never live before, is started and attached to the record, and it becomes the run's only live timer; the table invariant is kept |
| RunTracking.RunTable.RegisterRun | docs/app.js:332-348 | the earlier timer of the same run is cancelled; the record is replaced by one built from the run and the test title; exactly one fresh timer is live for it; other runs and their timers are untouched |
| RunTracking.RunTable.Tick | docs/app.js:400-421 | a failed poll changes nothing; an answered poll applies `PollUpdate` to the stored record, or to an empty one when the run is no longer tracked; a `completed` status cancels the run's own timer and leaves it with none; any other status leaves the timers as they were |
| RunTracking.RunTable.ClearRuns | docs/app.js:432-436 | every attached timer is cancelled, no timer is left live, and the table is empty |
| RunTracking.AttachKeepsWellFormed | docs/app.js:423-428 | attaching the next fresh handle to a record without a timer keeps every handle unique to one run and every live timer attached |
| RunTracking.ReplaceKeepsWellFormed | docs/app.js:333-345 | replacing a record after cancelling its timer keeps the table invariant |
| RunTracking.PollKeepsWellFormed | docs/app.js:403-410 | a poll answer, for a tracked or an untracked run, keeps the table invariant |
| Catalog.IsAutomatedMeaning | docs/app.js:231-234 | a test is automated iff its lower-cased automation field contains `automated` at some position or equals `auto`; a test without the field is not automated; the letter case of the field does not matter |
| Catalog.IsAutomated | docs/app.js:231-234 | a test without an automation field is not automated; a field that lower-cases to `auto` is; an automated test has a field of at least four characters |
| Catalog.KeepMatchingExact | docs/app.js:191 | the filter keeps every test whose lower-cased title contains the query, as often as it occurs, and no other test |
| Catalog.KeepMatchingAppend | docs/app.js:191 | filtering preserves order: filtering a concatenation is the concatenation of the filtered parts |
| Catalog.KeepMatchingEmptyQuery | docs/app.js:190-191 | an empty query matches every title |
| Catalog.KeepMatching | docs/app.js:191 | the filter never adds tests: it returns at most as many as it is given, and only given tests whose lower-cased title contains the query |
| Catalog.VisibleTests | docs/app.js:185-192 | the visible tests are the filter applied to the trimmed, lower-cased query, and a blank query shows every test |
| Strings.Lower | docs/app.js:232 | lower-casing keeps the length and lowers each character on its own |
| Strings.LowerChar | docs/app.js:232 | the Latin capitals A-Z and the Cyrillic capitals U+0410-U+042F move up by 32 code points and U+0400-U+040F by 80, giving a non-capital; every other character is unchanged |
| Strings.LowerIdempotent | docs/app.js:232 | lower-casing twice is the same as once |
| Strings.Trim | docs/app.js:186 | the trimmed query is a slice of the input with only white space outside it and none at its ends |
| Strings.Contains | docs/app.js:233 | the empty string is contained in every string, a prefix is contained, and a contained string is no longer than the one containing it |
| Strings.ContainsIffOccurs | docs/app.js:233 | `includes` holds iff the substring occurs at some index |
| Strings.DecimalStringRoundTrip | scripts/testiny-bulk-run.js:25 | the decimal digits of a number read back as the number |
| Strings.IntString | scripts/testiny-bulk-run.js:28 | `String(n)` is the decimal digits of n, with a leading minus sign for a negative n; the digits read back as n (as -n after the sign) |
| Strings.Pad2 | scripts/testiny-bulk-run.js:25 | a number below 100 is padded to exactly two digits that read back as the number |
| Strings.LastTwo | scripts/testiny-bulk-run.js:28 | `slice(-2)` returns the last two characters, or the whole string when it is shorter |
| Strings.YearDigits | scripts/testiny-bulk-run.js:28 | the last two characters of a year from 10 on are two digits denoting the year modulo 100 |
| Settings.PersistPayload | docs/app.js:62-77 | the stored payload holds the two secrets iff `remember` is on |
| Settings.Restore | docs/app.js:56 | `Object.assign` takes every stored field; each secret comes from the payload when stored and otherwise stays as the page had it |
| Settings.PersistRestoreRoundTrip | docs/app.js:51-77 | restoring what was persisted gives back every setting, and the secrets only when `remember` was on (otherwise the page keeps its own) |
| BulkRun.RunUrl | scripts/testiny-bulk-run.js:19-22 | the link is non-empty iff the server URL, repository and run id are all set, and then it is `server/repository/actions/runs/id` |
| BulkRun.FormatRunTitle | scripts/testiny-bulk-run.js:24-33 | every title starts with `Autocreated test run ` |
| BulkRun.RunTitleFields | scripts/testiny-bulk-run.js:24-33 | for a valid local time, the title is the prefix plus `DD.MM.YY HH:MM:SS`: 38 characters with the separators in place, and each field reads back as the day, the 1-based month, the year modulo 100, the hours, the minutes and the seconds |
| BulkRun.DateStampFields | scripts/testiny-bulk-run.js:26-28 | the date part is `DD.MM.YY`, and its fields read back as the day, the 1-based month and the year modulo 100 |
| BulkRun.TimeStampFields | scripts/testiny-bulk-run.js:29-31 | the time part is `HH:MM:SS`, and its fields read back as the hours, the minutes and the seconds |
| BulkRun.ChunkArray | scripts/testiny-bulk-run.js:52-58 | the chunks concatenate back to the input; there are none iff the input is empty; each has 1 to `size` elements; all but the last have exactly `size` |
| BulkRun.MappingPayload | scripts/testiny-bulk-run.js:78-86 | one entry per test, in order, with the test's id, the run id and the status named `NOTRUN` |
| BulkRun.MapTestsToRun | scripts/testiny-bulk-run.js:75-89 | each mapping request carries 1 to 200 entries; the requests together are one NOTRUN entry per test, in order; there are none iff there are no tests |
| BulkRun.ResultComment | scripts/testiny-bulk-run.js:138-140 | the comment always starts with the plain text; it is just that text when there is no run link, and otherwise it begins with the plain text, ` Подробнее <a href="` and then the link, and contains `<` exactly when there is a link |
| BulkRun.ResultFor | scripts/testiny-bulk-run.js:136-141 | the update names the test and the run; its status is named `PASSED` iff the Playwright run succeeded and `FAILED` iff it did not; it carries the comment |
| BulkRun.RunnableIndicesMeaning | scripts/testiny-bulk-run.js:133-134 | the tests the loop executes are exactly those with an id and a title, in increasing order |
| BulkRun.FailedAmongMeaning | scripts/testiny-bulk-run.js:142-144 | the failure flag is set iff some executed test failed |
| BulkRun.RunTests | scripts/testiny-bulk-run.js:132-145 | each runnable test, in order, is executed by title and gets exactly one update built by `ResultFor`; skipped tests get none; `hasFailures` holds iff some runnable test failed |
| BulkRun.RunBulk | scripts/testiny-bulk-run.js:122-153 | the exit code is 0 or 1. It is 1 iff the API key or project id is missing (lines 10-17), the test list is not a non-empty array, the run was not created, or a runnable test failed. The create request is sent iff the configuration and the list are valid, with the formatted title, the project id and the fixed description. Nothing is mapped or run without a created run; otherwise mapping and results are those of `MapTestsToRun` and `RunTests` |
| Pagination.Paginate | scripts/sync-testiny.js:47-62 | request j asks for offset = the number of items received before it; the loop stops at the first answer that failed, reached the total or was empty; the listing is every item received, in order, with the last total, and a failed request ends it with that error |
| Pagination.FetchTests | scripts/sync-testiny.js:40-63 | the pagination contract with pages of 500 |
| Pagination.FetchTestFolders | scripts/sync-testiny.js:65-86 | the pagination contract with pages of 2000 |
| Pagination.FetchTestFolderMappings | scripts/sync-testiny.js:88-108 | the pagination contract with pages of 2000 |
| Pagination.ReceivedStep | scripts/sync-testiny.js:55-59 | one answered page appends its data, sets the total to `totalCount` or else the count received, and stops the loop iff the offset reached that total or the page was empty |
| Pagination.MissingTotalStops | scripts/sync-testiny.js:56-59 | a page without `totalCount` always ends the loop |
| Pagination.ContinuingAdvances | scripts/sync-testiny.js:57-59 | an iteration that goes on strictly advances the offset |
| Pagination.ReceivedAtLeast | scripts/sync-testiny.js:55-59 | after k iterations that went on, at least k items have been received |
| Pagination.RequestsBoundedByTotal | scripts/sync-testiny.js:47-60 | when every page reports the same total, the loop makes at most that many requests, and one when the total is 0 |
| Pagination.ProjectsPayload | scripts/sync-testiny.js:117-121 | the payload holds the projects, or none; its total is the reported `totalCount`, or failing that the number of projects |

## Left out

- HTTP, the 2000 ms delay between run queries, the 5000 ms polling period, rendering, toasts and console output are not modelled. Every answer is an input value.
- Correlation.WaitForRun: the request URL (repository, workflow, branch, `per_page=20`) is not modelled; the answers are given per attempt.
- Interleaving of asynchronous ticks is not modelled. Each answer is applied whole by one `RunTable.Tick` call, and the immediate `tick()` of `startPolling` is one such call after `RegisterRun`.
- RunTracking.RunTable.StartPolling: requires the record to exist without a timer, as its only caller `registerRun` guarantees. Its `if (stored)` branch for a missing record is not modelled.
- Timer handles are a separate id space. The source shares it with `setTimeout`, which makes no difference here.
- Strings.LowerChar: only A-Z and U+0400-U+042F are lowered. Every other capital (Latin-1 and extended Latin such as U+00C0 and U+0141, Cyrillic after U+042F such as U+0490, Greek, ...) is left unchanged, whereas `toLowerCase` lowers it.
- Strings.Lower: inherits that restriction, so a title such as "Ґрунт" does not match the query "ґрунт" in the model although it does in the source; the search filter and `IsAutomated` are exact only for text in the lowered ranges.
- Parsing `created_at` into milliseconds is abstracted: `createdAt` is already the number of milliseconds.
- JSON parsing and serialisation and `localStorage` are not modelled. A stored payload is a value, and an unparsable `TESTS_JSON` is modelled like a non-array.
- Catalog.IsAutomated: the automation field is taken in its string form. `toString` of a non-string value is not modelled.
- Catalog.VisibleTests: a test without a title is modelled with an empty title. With a non-empty query the source throws at `t.title.toLowerCase()` instead of filtering it out; that exception is not modelled.
- BulkRun.RunBulk: a `null` entry in `TESTS_JSON` is not modelled. The source creates the run, then throws in the mapping payload builder (`test.id` of `null`) and exits with 1 before running any test. The closest modelled input, a test with id 0 and no title, is skipped instead.
- BulkRun.RunTitleFields: requires a year from 10 on. For years 0 to 9 `slice(-2)` gives one digit and the title is one character shorter. For negative years it gives the minus sign and a digit, or the last two digits of the absolute value, and neither denotes `year % 100`. `new Date()` yields no such year.
- BulkRun.RunBulk: a failure of a mapping or result-update request is not modelled. The source would exit with 1 through its `catch`. A failed create request and a create answer without an id are both modelled as run id 0.
- BulkRun.RunBulk: `Number(PROJECT_ID)` being `NaN` is folded into project id 0, which the source rejects the same way.
- BulkRun.MappingPayload: a test without an id is mapped with id 0. The source sends `undefined`, which JSON drops.
- Spawning Playwright, the `ENVIRONMENT` variable passed to it, and `process.exit` itself are not modelled. The verdict per test and the exit code are values.
- Pagination.Paginate: requires that the server ends the listing within the answers given. A server that never stops makes the source loop for ever, and that case is not modelled.
- Writing the snapshot files, the per-project loop of the sync `main`, the `generatedAt` timestamps and `fetchProjects`' request are not modelled.
- The folder tree, test selection, single-flight launching, workflow dispatch and the `hydrateForm` wiring of the page lie outside this model.

=== FILE: bulk_run.dfy ===
/**
 * The bulk-run CI script (scripts/testiny-bulk-run.js): it creates a test run
 * in the test-management system, attaches every requested test to it as
 * NOTRUN in batches, runs each well-formed test through Playwright, posts
 * PASSED or FAILED for it, and exits with 1 when anything failed.
 * HTTP calls, the clock, the environment and the Playwright process are
 * inputs; a field the script only tests for truthiness is modelled by its
 * falsy value when missing (id 0, empty title, empty variable).
 */
module BulkRun {
  import opened Common
  import opened Strings

  /** The largest number of entries one mapping request carries. */
  const MappingBatchSize: nat := 200

  // ------------------------------------------------------------ runUrl

  /** `runUrl`: the link to this CI run, empty unless all three variables are set. */
  function RunUrl(serverUrl: string, repository: string, runId: string): (url: string)
    ensures url != [] <==> serverUrl != [] && repository != [] && runId != []
    ensures url != [] ==> url == serverUrl + "/" + repository + "/actions/runs/" + runId
  {
    if serverUrl != [] && repository != [] && runId != [] then
      serverUrl + "/" + repository + "/actions/runs/" + runId
    else ""
  }

  // ------------------------------------------------------------ formatRunTitle

  /** The local-time fields of a `Date`; `month` is 0-based, as `getMonth` returns it. */
  datatype LocalTime = LocalTime(year: int, month: nat, day: nat, hours: nat, minutes: nat, seconds: nat)

  /** The ranges the `Date` getters keep to. */
  predicate IsLocalTime(t: LocalTime) {
    1 <= t.day <= 31 && t.month <= 11 && t.hours <= 23 && t.minutes <= 59 && t.seconds <= 59
  }

  const TitlePrefix: string := "Autocreated test run "

  /** `formatRunTitle(date)`. */
  function FormatRunTitle(t: LocalTime): (title: string)
    ensures TitlePrefix <= title
  {
    TitlePrefix + DateStamp(t) + " " + TimeStamp(t)
  }

  /** `${day}.${month}.${year}` of the title. */
  function DateStamp(t: LocalTime): string {
    Pad2(t.day) + "." + Pad2(t.month + 1) + "." + LastTwo(IntString(t.year))
  }

  /** `${hours}:${minutes}:${seconds}` of the title. */
  function TimeStamp(t: LocalTime): string {
    Pad2(t.hours) + ":" + Pad2(t.minutes) + ":" + Pad2(t.seconds)
  }

  /**
   * The title has the fixed layout `DD.MM.YY HH:MM:SS` after its prefix, and
   * each two-digit field reads back as the day, the 1-based month, the year
   * modulo 100, the hours, the minutes and the seconds.
   */
  lemma RunTitleFields(t: LocalTime)
    requires IsLocalTime(t) && t.year >= 10
    ensures var title := FormatRunTitle(t);
      && |title| == |TitlePrefix| + 17
      && title[..21] == TitlePrefix
      && title[23] == '.' && title[26] == '.' && title[29] == ' ' && title[32] == ':' && title[35] == ':'
      && TwoDigitValue(title[21..23]) == t.day
      && TwoDigitValue(title[24..26]) == t.month + 1
      && TwoDigitValue(title[27..29]) == t.year % 100
      && TwoDigitValue(title[30..32]) == t.hours
      && TwoDigitValue(title[33..35]) == t.minutes
      && TwoDigitValue(title[36..38]) == t.seconds
  {
    var date, time := DateStamp(t), TimeStamp(t);
    DateStampFields(t);
    TimeStampFields(t);
    TitleLayout(TitlePrefix, date, time);
  }

  /** Where the date and time parts sit in `prefix + date + " " + time`. */
  lemma TitleLayout(prefix: string, date: string, time: string)
    requires |prefix| == 21 && |date| == 8 && |time| == 8
    ensures var title := prefix + date + " " + time;
      && |title| == 38 && title[..21] == prefix && title[29] == ' '
      && title[21..23] == date[0..2] && title[24..26] == date[3..5] && title[27..29] == date[6..8]
      && title[30..32] == time[0..2] && title[33..35] == time[3..5] && title[36..38] == time[6..8]
      && title[23] == date[2] && title[26] == date[5] && title[32] == time[2] && title[35] == time[5]
  {
    var title := prefix + date + " " + time;
    assert title[21..29] == date;
    assert title[30..38] == time;
    assert title[21..23] == date[0..2] && title[24..26] == date[3..5] && title[27..29] == date[6..8];
    assert title[30..32] == time[0..2] && title[33..35] == time[3..5] && title[36..38] == time[6..8];
  }

  lemma DateStampFields(t: LocalTime)
    requires IsLocalTime(t) && t.year >= 10
    ensures var d := DateStamp(t);
      && |d| == 8 && d[2] == '.' && d[5] == '.'
      && TwoDigitValue(d[0..2]) == t.day
      && TwoDigitValue(d[3..5]) == t.month + 1
      && TwoDigitValue(d[6..8]) == t.year % 100
  {
    YearDigits(t.year);
    var dd, mm, yy := Pad2(t.day), Pad2(t.month + 1), LastTwo(IntString(t.year));
    var d := DateStamp(t);
    assert d[0..2] == dd && d[3..5] == mm && d[6..8] == yy;
  }

  lemma TimeStampFields(t: LocalTime)
    requires IsLocalTime(t)
    ensures var c := TimeStamp(t);
      && |c| == 8 && c[2] == ':' && c[5] == ':'
      && TwoDigitValue(c[0..2]) == t.hours
      && TwoDigitValue(c[3..5]) == t.minutes
      && TwoDigitValue(c[6..8]) == t.seconds
  {
    var hh, mi, ss := Pad2(t.hours), Pad2(t.minutes), Pad2(t.seconds);
    var c := TimeStamp(t);
    assert c[0..2] == hh && c[3..5] == mi && c[6..8] == ss;
  }

  // ------------------------------------------------------------ chunkArray

  /** The concatenation of a sequence of sequences. */
  function Flatten<T>(s: seq<seq<T>>): seq<T> {
    if s == [] then [] else s[0] + Flatten(s[1..])
  }

  /** Appending one part appends its elements. */
  lemma {:induction false} FlattenAppend<T>(s: seq<seq<T>>, last: seq<T>)
    ensures Flatten(s + [last]) == Flatten(s) + last
  {
    if s == [] {
      assert [] + [last] == [last];
    } else {
      assert (s + [last])[1..] == s[1..] + [last];
      FlattenAppend(s[1..], last);
    }
  }

  /**
   * `chunkArray(arr, size)`: consecutive slices of `size` elements, the last
   * one possibly shorter. A size of 0 would never end the loop, so it is
   * excluded; the script always passes 200.
   */
  method ChunkArray<T>(arr: seq<T>, size: nat) returns (chunks: seq<seq<T>>)
    requires size > 0
    ensures Flatten(chunks) == arr
    ensures chunks == [] <==> arr == []
    ensures forall j :: 0 <= j < |chunks| ==> 1 <= |chunks[j]| <= size
    ensures forall j :: 0 <= j < |chunks| - 1 ==> |chunks[j]| == size
  {
    chunks := [];
    var i := 0;
    while i < |arr|
      invariant chunks == [] <==> i == 0
      invariant i <= |arr| ==> Flatten(chunks) == arr[..i]
      invariant i > |arr| ==> Flatten(chunks) == arr
      invariant forall j :: 0 <= j < |chunks| ==> 1 <= |chunks[j]| <= size
      invariant forall j :: 0 <= j < |chunks| - 1 ==> |chunks[j]| == size
      invariant i <= |arr| ==> forall j :: 0 <= j < |chunks| ==> |chunks[j]| == size
    {
      var end := if i + size <= |arr| then i + size else |arr|;
      var chunk := arr[i..end];
      FlattenAppend(chunks, chunk);
      assert arr[..i] + chunk == arr[..end];
      assert end == |arr| ==> arr[..end] == arr;
      chunks := chunks + [chunk];
      i := i + size;
    }
    assert i == |arr| ==> arr[..i] == arr;
  }

  // ------------------------------------------------------------ mapTestsToRun

  /** A test as it appears in the `TESTS_JSON` list; id 0 and an empty title stand for missing ones. */
  datatype BulkTest = BulkTest(id: nat, title: string)

  /** The result statuses the script posts. */
  datatype ResultStatus = NotRun | Passed | Failed {
    function Name(): string {
      match this
      case NotRun => "NOTRUN"
      case Passed => "PASSED"
      case Failed => "FAILED"
    }
  }

  /** One entry of a mapping request: `{ids: {testcase_id, testrun_id}, mapped: {result_status}}`. */
  datatype MappingEntry = MappingEntry(testcaseId: nat, testrunId: nat, resultStatus: ResultStatus)

  /** The `batch.map(...)` payload: one NOTRUN entry per test, in order. */
  function MappingPayload(testRunId: nat, batch: seq<BulkTest>): (payload: seq<MappingEntry>)
    ensures |payload| == |batch|
    ensures forall i :: 0 <= i < |batch| ==> payload[i] == MappingEntry(batch[i].id, testRunId, NotRun)
    ensures forall i :: 0 <= i < |batch| ==> payload[i].resultStatus.Name() == "NOTRUN"
  {
    seq(|batch|, i requires 0 <= i < |batch| => MappingEntry(batch[i].id, testRunId, NotRun))
  }

  /**
   * `mapTestsToRun(testRunId, tests)`: the payloads of the mapping requests,
   * in the order they are sent.
   */
  method MapTestsToRun(testRunId: nat, tests: seq<BulkTest>) returns (requests: seq<seq<MappingEntry>>)
    ensures forall j :: 0 <= j < |requests| ==> 1 <= |requests[j]| <= MappingBatchSize
    ensures Flatten(requests) == MappingPayload(testRunId, tests)
    ensures requests == [] <==> tests == []
  {
    var batches := ChunkArray(tests, MappingBatchSize);
    requests := [];
    for k := 0 to |batches|
      invariant |requests| == k
      invariant forall j :: 0 <= j < k ==> requests[j] == MappingPayload(testRunId, batches[j])
      invariant Flatten(requests) == MappingPayload(testRunId, Flatten(batches[..k]))
    {
      var payload := MappingPayload(testRunId, batches[k]);
      FlattenAppend(requests, payload);
      FlattenAppend(batches[..k], batches[k]);
      assert batches[..k + 1] == batches[..k] + [batches[k]];
      requests := requests + [payload];
    }
    assert batches[..|batches|] == batches;
  }

  // ------------------------------------------------------------ results

  /** The script skips a test without an id or without a title. */
  predicate Runnable(test: BulkTest) {
    test.id != 0 && test.title != []
  }

  const PlainComment: string := "Автоматически пройденны тест."
  const LinkHead: string := PlainComment + " Подробнее <a href=\""

  /** The comment posted with a result: the link to the CI run when there is one. */
  function ResultComment(runUrl: string): (comment: string)
    ensures PlainComment <= comment
    ensures runUrl == [] ==> comment == PlainComment
    ensures runUrl != [] ==> OccursAt(comment, runUrl, |LinkHead|)
    ensures runUrl != [] ==> LinkHead + runUrl <= comment
    ensures '<' in comment <==> runUrl != []
  {
    if runUrl != [] then LinkHead + runUrl + "\">Actions run</a>" else PlainComment
  }

  /** One result update: `{ids: {testcase_id, testrun_id}, mapped: {result_status, comment}}`. */
  datatype ResultUpdate = ResultUpdate(testcaseId: nat, testrunId: nat, resultStatus: ResultStatus, comment: string)

  /** The update posted for a test after its Playwright run. */
  function ResultFor(testRunId: nat, test: BulkTest, ok: bool, runUrl: string): (u: ResultUpdate)
    ensures u.testcaseId == test.id && u.testrunId == testRunId
    ensures u.resultStatus == Passed <==> ok
    ensures u.resultStatus == Failed <==> !ok
    ensures u.resultStatus.Name() == if ok then "PASSED" else "FAILED"
    ensures u.comment == ResultComment(runUrl)
  {
    ResultUpdate(test.id, testRunId, if ok then Passed else Failed, ResultComment(runUrl))
  }

  /** The positions, in increasing order, of the runnable tests among the first `n`. */
  function RunnableIndices(tests: seq<BulkTest>, n: nat): seq<nat>
    requires n <= |tests|
  {
    if n == 0 then []
    else RunnableIndices(tests, n - 1) + if Runnable(tests[n - 1]) then [n - 1] else []
  }

  /** The indices are exactly the runnable ones below `n`, in increasing order. */
  lemma {:induction false} RunnableIndicesMeaning(tests: seq<BulkTest>, n: nat)
    requires n <= |tests|
    ensures var r := RunnableIndices(tests, n);
      && (forall k :: 0 <= k < |r| ==> r[k] < n && Runnable(tests[r[k]]))
      && (forall k, l :: 0 <= k < l < |r| ==> r[k] < r[l])
      && (forall i :: 0 <= i < n && Runnable(tests[i]) ==> i in r)
  {
    if n > 0 {
      RunnableIndicesMeaning(tests, n - 1);
    }
  }

  lemma RunnableIndicesStep(tests: seq<BulkTest>, i: nat)
    requires i < |tests|
    ensures Runnable(tests[i]) ==> RunnableIndices(tests, i + 1) == RunnableIndices(tests, i) + [i]
    ensures !Runnable(tests[i]) ==> RunnableIndices(tests, i + 1) == RunnableIndices(tests, i)
  {
  }

  /** `executed` and `updates` are what the loop produces for the runnable tests at `idx`. */
  ghost predicate ResultsFor(testRunId: nat, tests: seq<BulkTest>, runUrl: string, passes: nat -> bool,
                             idx: seq<nat>, executed: seq<string>, updates: seq<ResultUpdate>)
  {
    && |executed| == |idx| && |updates| == |idx|
    && forall k :: 0 <= k < |idx| ==>
         idx[k] < |tests|
         && executed[k] == tests[idx[k]].title
         && updates[k] == ResultFor(testRunId, tests[idx[k]], passes(idx[k]), runUrl)
  }

  /** Executing one more runnable test extends the results by its title and update. */
  lemma ResultsForStep(testRunId: nat, tests: seq<BulkTest>, runUrl: string, passes: nat -> bool,
                       idx: seq<nat>, executed: seq<string>, updates: seq<ResultUpdate>, i: nat)
    requires ResultsFor(testRunId, tests, runUrl, passes, idx, executed, updates)
    requires i < |tests|
    ensures ResultsFor(testRunId, tests, runUrl, passes, idx + [i], executed + [tests[i].title],
                       updates + [ResultFor(testRunId, tests[i], passes(i), runUrl)])
  {
  }

  /** Whether one of the first `n` tests is runnable and its run failed. */
  function FailedAmong(tests: seq<BulkTest>, passes: nat -> bool, n: nat): bool
    requires n <= |tests|
  {
    n > 0 && (FailedAmong(tests, passes, n - 1) || (Runnable(tests[n - 1]) && !passes(n - 1)))
  }

  lemma {:induction false} FailedAmongMeaning(tests: seq<BulkTest>, passes: nat -> bool, n: nat)
    requires n <= |tests|
    ensures FailedAmong(tests, passes, n) <==> exists i :: 0 <= i < n && Runnable(tests[i]) && !passes(i)
  {
    if n > 0 {
      FailedAmongMeaning(tests, passes, n - 1);
    }
  }

  /**
   * The result loop of `main`: `passes(i)` is whether the Playwright run of
   * `tests[i]` succeeded. Each runnable test, in order, is executed by title
   * and gets one update; the others are skipped. `hasFailures` records
   * whether any executed test failed.
   */
  method RunTests(testRunId: nat, tests: seq<BulkTest>, runUrl: string, passes: nat -> bool)
    returns (executed: seq<string>, updates: seq<ResultUpdate>, hasFailures: bool)
    ensures ResultsFor(testRunId, tests, runUrl, passes, RunnableIndices(tests, |tests|), executed, updates)
    ensures hasFailures <==> exists i :: 0 <= i < |tests| && Runnable(tests[i]) && !passes(i)
  {
    executed, updates, hasFailures := [], [], false;
    ghost var idx: seq<nat> := [];
    var i := 0;
    while i < |tests|
      invariant i <= |tests|
      invariant idx == RunnableIndices(tests, i)
      invariant ResultsFor(testRunId, tests, runUrl, passes, idx, executed, updates)
      invariant hasFailures == FailedAmong(tests, passes, i)
    {
      RunnableIndicesStep(tests, i);
      if Runnable(tests[i]) {
        var ok := passes(i);
        ResultsForStep(testRunId, tests, runUrl, passes, idx, executed, updates, i);
        executed := executed + [tests[i].title];
        updates := updates + [ResultFor(testRunId, tests[i], ok, runUrl)];
        idx := idx + [i];
        if !ok {
          hasFailures := true;
        }
      }
      i := i + 1;
    }
    FailedAmongMeaning(tests, passes, |tests|);
  }

  // ------------------------------------------------------------ main

  /** The script's environment: `TESTINY_API_KEY`, `Number(PROJECT_ID)` (0 when missing or not a number) and `runUrl`. */
  datatype Environment = Environment(apiKey: string, projectId: int, runUrl: string)

  /** The body of the create-test-run request. */
  datatype CreateRunRequest = CreateRunRequest(title: string, projectId: int, description: string)

  const RunDescription: string := "Создано через API"

  /** Everything the script sends and its exit code. */
  datatype BulkReport = BulkReport(
    createRequest: Option<CreateRunRequest>,
    mappingRequests: seq<seq<MappingEntry>>,
    executed: seq<string>,
    updates: seq<ResultUpdate>,
    exitCode: nat)

  /**
   * The whole script: `testsJson` is the parsed `TESTS_JSON` (`None` when it is
   * not an array), `clock` the local time at creation, `createdRunId` the id
   * the create request returned (0 when it failed or returned none).
   */
  method RunBulk(env: Environment, testsJson: Option<seq<BulkTest>>, clock: LocalTime,
                 createdRunId: nat, passes: nat -> bool)
    returns (report: BulkReport)
    ensures report.exitCode == 0 || report.exitCode == 1
    ensures report.exitCode == 1 <==>
      || env.apiKey == [] || env.projectId == 0
      || testsJson.None? || testsJson.value == []
      || createdRunId == 0
      || exists i :: 0 <= i < |testsJson.value| && Runnable(testsJson.value[i]) && !passes(i)
    ensures report.createRequest.Some? <==>
      env.apiKey != [] && env.projectId != 0 && testsJson.Some? && testsJson.value != []
    ensures report.createRequest.Some? ==>
      report.createRequest.value == CreateRunRequest(FormatRunTitle(clock), env.projectId, RunDescription)
    ensures report.createRequest.None? || createdRunId == 0 ==>
      report.mappingRequests == [] && report.executed == [] && report.updates == []
    ensures report.createRequest.Some? && createdRunId != 0 ==>
      && (forall j :: 0 <= j < |report.mappingRequests| ==> 1 <= |report.mappingRequests[j]| <= MappingBatchSize)
      && Flatten(report.mappingRequests) == MappingPayload(createdRunId, testsJson.value)
      && ResultsFor(createdRunId, testsJson.value, env.runUrl, passes,
                    RunnableIndices(testsJson.value, |testsJson.value|), report.executed, report.updates)
  {
    report := BulkReport(None, [], [], [], 1);
    if env.apiKey == [] || env.projectId == 0 {
      return;
    }
    if testsJson.None? || testsJson.value == [] {
      return;
    }
    var tests := testsJson.value;
    var request := CreateRunRequest(FormatRunTitle(clock), env.projectId, RunDescription);
    report := report.(createRequest := Some(request));
    if createdRunId == 0 {
      return;
    }
    var mapping := MapTestsToRun(createdRunId, tests);
    var executed, updates, hasFailures := RunTests(createdRunId, tests, env.runUrl, passes);
    report := report.(mappingRequests := mapping, executed := executed, updates := updates,
                      exitCode := if hasFailures then 1 else 0);
  }
}

=== FILE: catalog.dfy ===
/**
 * The test list of the launcher page (docs/app.js): which tests are
 * automated, and which ones the search box keeps visible.
 */
module Catalog {
  import opened Common
  import opened Strings

  /**
   * A test case as loaded from the test-management system. `automation` is
   * the string form of the test's automation field, `None` when it is absent
   * or falsy.
   */
  datatype Test = Test(id: nat, title: string, automation: Option<string>)

  /** `isAutomated(test)`. */
  predicate IsAutomated(test: Test): (automated: bool)
    ensures test.automation.None? ==> !automated
    ensures Lower(test.automation.GetOr("")) == "auto" ==> automated
    ensures automated ==> test.automation.Some? && |test.automation.value| >= 4
  {
    var val := Lower(test.automation.GetOr(""));
    Contains(val, "automated") || val == "auto"
  }

  /**
   * A test is automated exactly when its lower-cased automation field holds
   * "automated" at some position or is "auto"; a test without the field is
   * not, and the field's letter case does not matter.
   */
  lemma IsAutomatedMeaning(test: Test)
    ensures var val := Lower(test.automation.GetOr(""));
      IsAutomated(test) <==> (exists i :: 0 <= i <= |val| - 9 && OccursAt(val, "automated", i)) || val == "auto"
    ensures test.automation.None? ==> !IsAutomated(test)
    ensures test.automation.Some? ==>
      IsAutomated(test) == IsAutomated(test.(automation := Some(Lower(test.automation.value))))
  {
    ContainsIffOccurs(Lower(test.automation.GetOr("")), "automated");
    if test.automation.Some? {
      LowerIdempotent(test.automation.value);
    }
  }

  /** `t.title.toLowerCase().includes(query)`. */
  predicate TitleMatches(test: Test, query: string) {
    Contains(Lower(test.title), query)
  }

  /** `items.filter(...)` with the title test: the matching tests, in their order. */
  function KeepMatching(tests: seq<Test>, query: string): (r: seq<Test>)
    ensures |r| <= |tests|
    ensures forall x :: x in r ==> x in tests && TitleMatches(x, query)
  {
    if tests == [] then []
    else
      (if TitleMatches(tests[0], query) then [tests[0]] else []) + KeepMatching(tests[1..], query)
  }

  /**
   * The filter keeps exactly the matching tests: each one as often as it
   * occurs in the input, and nothing else.
   */
  lemma {:induction false} KeepMatchingExact(tests: seq<Test>, query: string, t: Test)
    ensures multiset(KeepMatching(tests, query))[t] == if TitleMatches(t, query) then multiset(tests)[t] else 0
  {
    if tests != [] {
      assert tests == [tests[0]] + tests[1..];
      KeepMatchingExact(tests[1..], query, t);
    }
  }

  /** Filtering a concatenation filters each part in place: the original order is kept. */
  lemma {:induction false} KeepMatchingAppend(a: seq<Test>, b: seq<Test>, query: string)
    ensures KeepMatching(a + b, query) == KeepMatching(a, query) + KeepMatching(b, query)
  {
    if a == [] {
      assert a + b == b;
    } else {
      var head := if TitleMatches(a[0], query) then [a[0]] else [];
      assert (a + b)[0] == a[0] && (a + b)[1..] == a[1..] + b;
      var rest, tail := KeepMatching(a[1..], query), KeepMatching(b, query);
      assert KeepMatching(a + b, query) == head + KeepMatching(a[1..] + b, query);
      KeepMatchingAppend(a[1..], b, query);
      assert KeepMatching(a, query) == head + rest;
      ConcatAssociates(head, rest, tail);
    }
  }

  /** Concatenation of test lists is associative. */
  lemma ConcatAssociates(x: seq<Test>, y: seq<Test>, z: seq<Test>)
    ensures x + (y + z) == (x + y) + z
  {
  }

  /** Every title contains the empty query, so an empty query keeps all tests. */
  lemma {:induction false} KeepMatchingEmptyQuery(tests: seq<Test>)
    ensures KeepMatching(tests, []) == tests
  {
    if tests != [] {
      assert TitleMatches(tests[0], []);
      KeepMatchingEmptyQuery(tests[1..]);
    }
  }

  /** `els.search.value.trim().toLowerCase()`. */
  function SearchQuery(raw: string): string {
    Lower(Trim(raw))
  }

  /** The tests `renderTests` shows for the text typed into the search box. */
  function VisibleTests(tests: seq<Test>, raw: string): (r: seq<Test>)
    ensures r == KeepMatching(tests, SearchQuery(raw))
    ensures Trim(raw) == [] ==> r == tests
  {
    var query := SearchQuery(raw);
    if query != [] then KeepMatching(tests, query)
    else
      KeepMatchingEmptyQuery(tests);
      tests
  }
}

=== FILE: common.dfy ===
/** Optional values and results with an error alternative, shared by every module. */
module Common {

  /** A value that may be absent: a JavaScript field that is `undefined` or `null`. */
  datatype Option<+T> = None | Some(value: T) {
    /** The `??` operator: the value when present, `default` otherwise. */
    function GetOr(default: T): T {
      match this
      case Some(v) => v
      case None => default
    }
  }

  /** The outcome of a call that may throw: a value, or the error message. */
  datatype Result<+T> = Success(value: T) | Failure(error: string)
}

=== FILE: correlation.dfy ===
/**
 * Correlation of a workflow dispatch with the run it caused (docs/app.js,
 * `waitForRun`). The dispatch call returns no run id, so the page lists the
 * workflow's recent runs a bounded number of times and takes the first one
 * created no earlier than shortly before the dispatch.
 */
module Correlation {
  import opened Common

  /** How many times the run list is queried before giving up. */
  const MaxAttempts: nat := 10
  /** Clock skew tolerated between the browser and the CI scheduler, in milliseconds. */
  const SkewSlackMs: int := 1500

  /**
   * A workflow run as the CI API reports it; `createdAt` is `created_at`
   * already converted to milliseconds since the epoch.
   */
  datatype WorkflowRun = WorkflowRun(
    id: nat,
    htmlUrl: string,
    status: string,
    conclusion: Option<string>,
    createdAt: int)

  /** The body of one "list workflow runs" response; `workflow_runs` may be absent. */
  datatype RunList = RunList(workflowRuns: Option<seq<WorkflowRun>>)

  /** `data.workflow_runs || []`. */
  function Candidates(list: RunList): seq<WorkflowRun> {
    list.workflowRuns.GetOr([])
  }

  /** The test `.find` applies: created no earlier than `SkewSlackMs` before the dispatch. */
  predicate CreatedSince(run: WorkflowRun, started: int) {
    run.createdAt >= started - SkewSlackMs
  }

  /** `.find`: the index of the first run, in list order, created since the dispatch. */
  function FirstCreatedSince(runs: seq<WorkflowRun>, started: int): (r: Option<nat>)
    ensures r.Some? ==> r.value < |runs| && CreatedSince(runs[r.value], started)
    ensures r.Some? ==> forall j :: 0 <= j < r.value ==> !CreatedSince(runs[j], started)
    ensures r.None? ==> forall j :: 0 <= j < |runs| ==> !CreatedSince(runs[j], started)
  {
    if runs == [] then None
    else if CreatedSince(runs[0], started) then Some(0)
    else match FirstCreatedSince(runs[1..], started)
      case None => None
      case Some(k) => Some(k + 1)
  }

  /** What `waitForRun` settles on: the run, or the reason it threw. */
  datatype WaitOutcome = Found(run: WorkflowRun) | NotFound | TransportFailed(message: string)

  /** An attempt that was answered and found nothing. */
  ghost predicate Missed(listing: nat -> Result<RunList>, started: int, j: nat) {
    listing(j).Success? && FirstCreatedSince(Candidates(listing(j).value), started).None?
  }

  /**
   * `waitForRun(startedAt)`: `listing(j)` is the answer to the j-th list query
   * (a failed request is a `Failure`); `queries` counts the queries made.
   */
  method WaitForRun(started: int, listing: nat -> Result<RunList>)
    returns (outcome: WaitOutcome, queries: nat)
    ensures 1 <= queries <= MaxAttempts
    ensures forall j :: 0 <= j < queries - 1 ==> Missed(listing, started, j)
    ensures outcome.Found? <==>
      var list := listing(queries - 1);
      list.Success? && FirstCreatedSince(Candidates(list.value), started).Some?
    ensures outcome.Found? ==>
      var runs := Candidates(listing(queries - 1).value);
      outcome.run == runs[FirstCreatedSince(runs, started).value]
    ensures outcome.NotFound? <==> queries == MaxAttempts && Missed(listing, started, queries - 1)
    ensures outcome.TransportFailed? <==> listing(queries - 1).Failure?
    ensures outcome.TransportFailed? ==> outcome.message == listing(queries - 1).error
  {
    var i: nat := 0;
    while i < MaxAttempts
      invariant i <= MaxAttempts
      invariant forall j :: 0 <= j < i ==> Missed(listing, started, j)
    {
      queries := i + 1;
      var response := listing(i);
      if response.Failure? {
        return TransportFailed(response.error), queries;
      }
      var runs := Candidates(response.value);
      var found := FirstCreatedSince(runs, started);
      if found.Some? {
        return Found(runs[found.value]), queries;
      }
      i := i + 1;
    }
    assert Missed(listing, started, MaxAttempts - 1);
    return NotFound, MaxAttempts;
  }

  /**
   * The search is determined by the list: a run created since the dispatch
   * with none before it in list order is exactly the one `.find` returns.
   */
  lemma {:induction false} FirstCreatedSinceUnique(runs: seq<WorkflowRun>, started: int, k: nat)
    requires k < |runs| && CreatedSince(runs[k], started)
    requires forall j :: 0 <= j < k ==> !CreatedSince(runs[j], started)
    ensures FirstCreatedSince(runs, started) == Some(k)
  {
    if k > 0 {
      FirstCreatedSinceUnique(runs[1..], started, k - 1);
    }
  }
}

=== FILE: pagination.dfy ===
/**
 * The offset-pagination loop of the snapshot sync script
 * (scripts/sync-testiny.js), shared by `fetchTests`, `fetchTestFolders` and
 * `fetchTestFolderMappings`. The server is the sequence of its answers: the
 * k-th request made gets `responses[k]`, a page or a failed request.
 */
module Pagination {
  import opened Common

  /** The page size `fetchTests` asks for. */
  const TestPageLimit: nat := 500
  /** The page size of the folder and folder-mapping requests. */
  const FolderPageLimit: nat := 2000

  /** One answer of a find endpoint: `meta.totalCount` and `data`, each possibly absent. */
  datatype Page<T> = Page(totalCount: Option<int>, data: Option<seq<T>>)

  /** The `pagination` part of a request. */
  datatype PageRequest = PageRequest(offset: nat, limit: nat)

  /** What a fetch function returns: `{data: acc, totalCount: total}`. */
  datatype Listing<T> = Listing(data: seq<T>, totalCount: int)

  /** The items a response adds: `res.data || []`. */
  function Items<T>(response: Result<Page<T>>): seq<T> {
    if response.Success? then response.value.data.GetOr([]) else []
  }

  /** Everything the first `n` responses carried, in fetch order. */
  function Received<T>(responses: seq<Result<Page<T>>>, n: nat): seq<T>
    requires n <= |responses|
  {
    if n == 0 then [] else Received(responses, n - 1) + Items(responses[n - 1])
  }

  /** `total` after the k-th response: `res.meta?.totalCount ?? acc.length`. */
  function TotalAfter<T>(responses: seq<Result<Page<T>>>, k: nat): int
    requires k < |responses| && responses[k].Success?
  {
    responses[k].value.totalCount.GetOr(|Received(responses, k + 1)|)
  }

  /**
   * The loop ends after the k-th response: the request failed, the offset
   * reached the total, or the page was empty.
   */
  predicate StopsAfter<T>(responses: seq<Result<Page<T>>>, k: nat) {
    k < |responses| &&
    (responses[k].Failure?
     || |Received(responses, k + 1)| >= TotalAfter(responses, k)
     || |Items(responses[k])| == 0)
  }

  /**
   * The contract every fetch function keeps: request j asks for the page at
   * the offset equal to the number of items received before it; the loop
   * ends at the first response after which the stop rule holds; and the
   * listing returned is all items received, in order, with the last total.
   */
  ghost predicate Paginated<T>(limit: nat, responses: seq<Result<Page<T>>>,
                               requests: seq<PageRequest>, outcome: Result<Listing<T>>)
  {
    && 1 <= |requests| <= |responses|
    && (forall j :: 0 <= j < |requests| ==> requests[j] == PageRequest(|Received(responses, j)|, limit))
    && (forall j :: 0 <= j < |requests| - 1 ==> !StopsAfter(responses, j))
    && StopsAfter(responses, |requests| - 1)
    && (outcome.Failure? <==> responses[|requests| - 1].Failure?)
    && (outcome.Failure? ==> outcome.error == responses[|requests| - 1].error)
    && (outcome.Success? ==>
          outcome.value == Listing(Received(responses, |requests|), TotalAfter(responses, |requests| - 1)))
  }

  /**
   * The pagination loop. The server must end the listing within the answers
   * given (otherwise the script loops for ever).
   */
  method Paginate<T>(limit: nat, responses: seq<Result<Page<T>>>)
    returns (requests: seq<PageRequest>, outcome: Result<Listing<T>>)
    requires exists k :: StopsAfter(responses, k)
    ensures Paginated(limit, responses, requests, outcome)
  {
    ghost var stop: nat :| StopsAfter(responses, stop);
    var offset: nat := 0;
    var total: int := 0;
    var acc: seq<T> := [];
    requests := [];
    var k: nat := 0;
    while true
      invariant k <= stop
      invariant Progress(limit, responses, requests, k)
      invariant acc == Received(responses, k) && offset == |acc|
      decreases stop - k
    {
      var request := PageRequest(offset, limit);
      var response := responses[k];
      if response.Failure? {
        outcome := Failure(response.error);
        StopContract(limit, responses, requests, k, outcome);
        requests := requests + [request];
        return;
      }
      ReceivedStep(responses, k);
      var page := response.value.data.GetOr([]);
      acc := acc + page;
      total := response.value.totalCount.GetOr(|acc|);
      offset := offset + |page|;
      if offset >= total || |page| == 0 {
        outcome := Success(Listing(acc, total));
        StopContract(limit, responses, requests, k, outcome);
        requests := requests + [request];
        return;
      }
      ContinueStep(limit, responses, requests, k);
      requests := requests + [request];
      k := k + 1;
    }
  }

  /** The first `k` requests were made as the contract says, and none of them ended the loop. */
  ghost predicate Progress<T>(limit: nat, responses: seq<Result<Page<T>>>, requests: seq<PageRequest>, k: nat) {
    && |requests| == k <= |responses|
    && (forall j :: 0 <= j < k ==> requests[j] == PageRequest(|Received(responses, j)|, limit))
    && (forall j :: 0 <= j < k ==> !StopsAfter(responses, j))
  }

  /** A response that does not stop the loop adds its request and leads to the next one. */
  lemma ContinueStep<T>(limit: nat, responses: seq<Result<Page<T>>>, requests: seq<PageRequest>, k: nat)
    requires Progress(limit, responses, requests, k)
    requires k < |responses| && !StopsAfter(responses, k)
    ensures Progress(limit, responses, requests + [PageRequest(|Received(responses, k)|, limit)], k + 1)
  {
  }

  /** The response that stops the loop completes the contract. */
  lemma StopContract<T>(limit: nat, responses: seq<Result<Page<T>>>, requests: seq<PageRequest>,
                        k: nat, outcome: Result<Listing<T>>)
    requires Progress(limit, responses, requests, k)
    requires StopsAfter(responses, k)
    requires responses[k].Failure? ==> outcome == Failure(responses[k].error)
    requires responses[k].Success? ==>
      outcome == Success(Listing(Received(responses, k + 1), TotalAfter(responses, k)))
    ensures Paginated(limit, responses, requests + [PageRequest(|Received(responses, k)|, limit)], outcome)
  {
    var next := requests + [PageRequest(|Received(responses, k)|, limit)];
    forall j | 0 <= j < k + 1 ensures next[j] == PageRequest(|Received(responses, j)|, limit) {
      if j < k { assert next[j] == requests[j]; }
    }
    assert |next| - 1 == k;
  }

  /** One answered page: what it adds, the total it sets and whether the loop stops there. */
  lemma ReceivedStep<T>(responses: seq<Result<Page<T>>>, k: nat)
    requires k < |responses| && responses[k].Success?
    ensures Received(responses, k + 1) == Received(responses, k) + responses[k].value.data.GetOr([])
    ensures TotalAfter(responses, k) == responses[k].value.totalCount.GetOr(|Received(responses, k + 1)|)
    ensures StopsAfter(responses, k) <==>
      |Received(responses, k + 1)| >= TotalAfter(responses, k) || |responses[k].value.data.GetOr([])| == 0
  {
  }

  /** `fetchTests(projectId)`: pages of 500 test cases. */
  method FetchTests<T>(responses: seq<Result<Page<T>>>)
    returns (requests: seq<PageRequest>, outcome: Result<Listing<T>>)
    requires exists k :: StopsAfter(responses, k)
    ensures Paginated(TestPageLimit, responses, requests, outcome)
  {
    requests, outcome := Paginate(TestPageLimit, responses);
  }

  /** `fetchTestFolders(projectId)`: pages of 2000 folders. */
  method FetchTestFolders<T>(responses: seq<Result<Page<T>>>)
    returns (requests: seq<PageRequest>, outcome: Result<Listing<T>>)
    requires exists k :: StopsAfter(responses, k)
    ensures Paginated(FolderPageLimit, responses, requests, outcome)
  {
    requests, outcome := Paginate(FolderPageLimit, responses);
  }

  /** `fetchTestFolderMappings(projectId)`: pages of 2000 test-to-folder mappings. */
  method FetchTestFolderMappings<T>(responses: seq<Result<Page<T>>>)
    returns (requests: seq<PageRequest>, outcome: Result<Listing<T>>)
    requires exists k :: StopsAfter(responses, k)
    ensures Paginated(FolderPageLimit, responses, requests, outcome)
  {
    requests, outcome := Paginate(FolderPageLimit, responses);
  }

  // ------------------------------------------------------------ properties of the stop rule

  /** A page without `totalCount` sets the total to what has been received, so the loop ends there. */
  lemma MissingTotalStops<T>(responses: seq<Result<Page<T>>>, k: nat)
    requires k < |responses| && responses[k].Success? && responses[k].value.totalCount.None?
    ensures StopsAfter(responses, k)
  {
  }

  /** An iteration that goes on has received a non-empty page: the offset strictly grows. */
  lemma ContinuingAdvances<T>(responses: seq<Result<Page<T>>>, k: nat)
    requires k < |responses| && !StopsAfter(responses, k)
    ensures |Received(responses, k + 1)| > |Received(responses, k)|
  {
  }

  /** After `k` iterations that went on, at least `k` items have been received. */
  lemma {:induction false} ReceivedAtLeast<T>(responses: seq<Result<Page<T>>>, k: nat)
    requires k <= |responses|
    requires forall j :: 0 <= j < k ==> !StopsAfter(responses, j)
    ensures |Received(responses, k)| >= k
  {
    if k > 0 {
      ReceivedAtLeast(responses, k - 1);
      assert !StopsAfter(responses, k - 1);
      ContinuingAdvances(responses, k - 1);
    }
  }

  /**
   * When every page reports the same total, the number of requests is at
   * most that total (and one request when the total is 0).
   */
  lemma RequestsBoundedByTotal<T>(limit: nat, responses: seq<Result<Page<T>>>,
                                  requests: seq<PageRequest>, outcome: Result<Listing<T>>, total: nat)
    requires Paginated(limit, responses, requests, outcome)
    requires forall j :: 0 <= j < |responses| ==>
      responses[j].Success? && responses[j].value.totalCount == Some(total)
    ensures |requests| <= if total == 0 then 1 else total
  {
    var n := |requests|;
    if n > 1 {
      ReceivedAtLeast(responses, n - 1);
      assert !StopsAfter(responses, n - 2);
      assert |Received(responses, n - 1)| < total;
    }
  }

  // ------------------------------------------------------------ projects snapshot

  /** The `projects.json` payload without its timestamp. */
  datatype ProjectsSnapshot<T> = ProjectsSnapshot(totalCount: int, data: seq<T>)

  /**
   * The payload `main` saves for the projects answer: the reported total, or
   * failing that the number of projects, or 0.
   */
  function ProjectsPayload<T>(projects: Page<T>): (snapshot: ProjectsSnapshot<T>)
    ensures snapshot.data == projects.data.GetOr([])
    ensures projects.totalCount.Some? ==> snapshot.totalCount == projects.totalCount.value
    ensures projects.totalCount.None? ==> snapshot.totalCount == |snapshot.data|
  {
    var count := if projects.totalCount.Some? then projects.totalCount.value
                 else if projects.data.Some? then |projects.data.value| else 0;
    ProjectsSnapshot(count, projects.data.GetOr([]))
  }
}

=== FILE: run_tracking.dfy ===
/**
 * The run table of the launcher page (docs/app.js): `state.runs`, a map from
 * run id to record, with one polling interval timer per tracked run.
 * Timers are abstract: `setInterval` hands out a fresh positive handle,
 * `clearInterval` removes a handle from the set of live ones, and each firing
 * of a timer is an explicit `Tick` call.
 */
module RunTracking {
  import opened Common
  import opened Correlation

  type RunId = nat
  /** A timer handle as `setInterval` returns it. */
  type Handle = nat

  /** One tracked run: the fields `registerRun` copies plus the attached timer. */
  datatype RunRecord = RunRecord(
    id: RunId,
    htmlUrl: string,
    status: string,
    conclusion: Option<string>,
    testTitle: string,
    createdAt: int,
    interval: Option<Handle>)

  // ------------------------------------------------------------ status badge

  /** The badge classes `statusClass` picks from. */
  datatype Badge = Queued | Running | Succeeded | Failed {
    function CssClass(): string {
      match this
      case Queued => "queued"
      case Running => "running"
      case Succeeded => "success"
      case Failed => "failure"
    }
  }

  /** `statusClass(run)`. */
  function StatusClass(run: RunRecord): (b: Badge)
    ensures b == Queued <==> run.status == "queued"
    ensures b == Running <==> run.status == "in_progress"
    ensures b == Succeeded <==> run.status == "completed" && run.conclusion == Some("success")
    ensures run.status == "queued" ==> b.CssClass() == "queued"
    ensures run.status == "in_progress" ==> b.CssClass() == "running"
    ensures run.status == "completed" && run.conclusion == Some("success") ==> b.CssClass() == "success"
    ensures b.CssClass() == "failure" <==>
      run.status != "queued" && run.status != "in_progress" && !(run.status == "completed" && run.conclusion == Some("success"))
  {
    if run.status == "queued" then Queued
    else if run.status == "in_progress" then Running
    else if run.status == "completed" && run.conclusion == Some("success") then Succeeded
    else Failed
  }

  /** JavaScript truthiness of an optional string: present and non-empty. */
  predicate Truthy(s: Option<string>) {
    s.Some? && s.value != ""
  }

  /** `statusLabel(run)`. */
  function StatusLabel(run: RunRecord): (text: string)
    ensures run.status == "queued" ==> text == "queued"
    ensures run.status == "in_progress" ==> text == "in progress"
    ensures run.status == "completed" && Truthy(run.conclusion) ==> text == run.conclusion.value
    ensures run.status == "completed" && !Truthy(run.conclusion) ==> text == "completed"
    ensures run.status != "queued" && run.status != "in_progress" && run.status != "completed" ==>
      text == run.status
  {
    if run.status == "queued" then "queued"
    else if run.status == "in_progress" then "in progress"
    else if run.status == "completed" then (if Truthy(run.conclusion) then run.conclusion.value else "completed")
    else run.status
  }

  /**
   * The badge and the label agree: a finished run shows the success badge
   * exactly when its label reads "success", a success badge always reads
   * "success", and a label is empty only for a run whose status is empty.
   */
  lemma BadgeMatchesLabel(run: RunRecord)
    ensures StatusClass(run) == Succeeded ==> StatusLabel(run) == "success"
    ensures run.status == "completed" ==> (StatusClass(run) == Succeeded <==> StatusLabel(run) == "success")
    ensures StatusClass(run) == Queued ==> StatusLabel(run) == "queued"
    ensures StatusClass(run) == Running ==> StatusLabel(run) == "in progress"
    ensures StatusLabel(run) == "" ==> run.status == "" && StatusClass(run) == Failed
  {
  }

  // ------------------------------------------------------------ the table

  /** The timer attached to run `id` in `runs`, as a set of at most one handle. */
  function IntervalOf(runs: map<RunId, RunRecord>, id: RunId): set<Handle> {
    if id in runs && runs[id].interval.Some? then {runs[id].interval.value} else {}
  }

  /** Every handle attached to some record of `runs`. */
  function Attached(runs: map<RunId, RunRecord>): set<Handle> {
    set id | id in runs && runs[id].interval.Some? :: runs[id].interval.value
  }

  /** The spread `{...prev, status, conclusion, html_url, created_at}` of a poll tick. */
  function PollUpdate(prev: RunRecord, data: WorkflowRun): (r: RunRecord)
    ensures r.status == data.status && r.conclusion == data.conclusion
    ensures r.htmlUrl == data.htmlUrl && r.createdAt == data.createdAt
    ensures r.(status := prev.status, conclusion := prev.conclusion,
               htmlUrl := prev.htmlUrl, createdAt := prev.createdAt) == prev
  {
    prev.(status := data.status, conclusion := data.conclusion,
          htmlUrl := data.htmlUrl, createdAt := data.createdAt)
  }

  /**
   * The record a poll answer is spread over when the run is no longer tracked:
   * `{...undefined}` is an empty object, so every field but the polled ones is
   * missing (modelled by its falsy value).
   */
  const Untracked: RunRecord := RunRecord(0, "", "", None, "", 0, None)

  /** `state.runs.get(runId)`, as the spread of a poll answer sees it. */
  function Stored(runs: map<RunId, RunRecord>, id: RunId): (prev: RunRecord)
    ensures id in runs ==> prev == runs[id]
    ensures id !in runs ==> prev == Untracked && prev.interval.None?
  {
    if id in runs then runs[id] else Untracked
  }

  class RunTable {
    /** `state.runs`. */
    var runs: map<RunId, RunRecord>
    /** The interval timers not cancelled yet. */
    var live: set<Handle>
    /** The handle `setInterval` returns next. */
    var nextHandle: Handle

    /**
     * The table invariant `WellFormed` on the current fields: in particular each
     * run has at most one live timer and no live timer outlives its record.
     */
    ghost predicate Valid()
      reads this
    {
      WellFormed(runs, live, nextHandle)
    }

    /** The live timers of run `id`. */
    ghost function TimersOf(id: RunId): set<Handle>
      reads this
    {
      IntervalOf(runs, id) * live
    }

    /** The page starts with no runs and no timers. */
    constructor ()
      ensures Valid() && runs == map[] && live == {}
    {
      runs := map[];
      live := {};
      nextHandle := 1;
    }

    /** `startPolling(runId)`: a fresh interval timer is started and attached to the record. */
    method StartPolling(runId: RunId)
      requires Valid() && runId in runs && runs[runId].interval.None?
      modifies this
      ensures Valid()
      ensures nextHandle == old(nextHandle) + 1 && old(nextHandle) !in old(live)
      ensures runs == old(runs)[runId := old(runs)[runId].(interval := Some(old(nextHandle)))]
      ensures live == old(live) + {old(nextHandle)}
      ensures TimersOf(runId) == {old(nextHandle)}
    {
      AttachKeepsWellFormed(runs, live, nextHandle, runId);
      var interval := nextHandle;
      nextHandle := nextHandle + 1;
      live := live + {interval};
      runs := runs[runId := runs[runId].(interval := Some(interval))];
    }

    /**
     * `registerRun(run, testTitle)`: the timer of an earlier record for the same
     * run is cancelled, the record is replaced by one built from `run`, and a
     * single fresh timer is attached to it.
     */
    method RegisterRun(run: WorkflowRun, testTitle: string)
      requires Valid()
      modifies this
      ensures Valid()
      ensures runs == old(runs)[run.id := RunRecord(run.id, run.htmlUrl, run.status, run.conclusion,
                                                    testTitle, run.createdAt, Some(old(nextHandle)))]
      ensures live == old(live) - IntervalOf(old(runs), run.id) + {old(nextHandle)}
      ensures old(nextHandle) !in old(live) && TimersOf(run.id) == {old(nextHandle)}
    {
      if run.id in runs && runs[run.id].interval.Some? {
        live := live - {runs[run.id].interval.value};
      }
      ReplaceKeepsWellFormed(old(runs), old(live), nextHandle,
        RunRecord(run.id, run.htmlUrl, run.status, run.conclusion, testTitle, run.createdAt, None));
      runs := runs[run.id := RunRecord(run.id, run.htmlUrl, run.status, run.conclusion,
                                       testTitle, run.createdAt, None)];
      StartPolling(run.id);
    }

    /**
     * One firing of the run's timer (the `tick` closure of `startPolling`).
     * An answered poll rewrites status, conclusion, html_url and created_at and
     * keeps everything else; a `completed` status cancels the run's own timer;
     * a failed request changes nothing. An answer for a run that is no longer
     * tracked (one that was in flight when `clearRuns` ran) files a record with
     * only the polled fields.
     */
    method Tick(runId: RunId, response: Result<WorkflowRun>)
      requires Valid()
      modifies this
      ensures Valid() && nextHandle == old(nextHandle)
      ensures response.Failure? ==> runs == old(runs) && live == old(live)
      ensures response.Success? ==>
        runs == old(runs)[runId := PollUpdate(Stored(old(runs), runId), response.value)]
      ensures response.Success? && runId !in old(runs) ==> runs[runId].testTitle == "" && live == old(live)
      ensures response.Success? && response.value.status == "completed" ==>
        live == old(live) - IntervalOf(old(runs), runId) && TimersOf(runId) == {}
      ensures response.Success? && response.value.status != "completed" ==>
        live == old(live) && TimersOf(runId) == old(TimersOf(runId))
    {
      if response.Success? {
        var data := response.value;
        var prev := Stored(runs, runId);
        PollKeepsWellFormed(runs, live, nextHandle, runId, data);
        runs := runs[runId := PollUpdate(prev, data)];
        if data.status == "completed" {
          var current := runs[runId];
          if current.interval.Some? {
            live := live - {current.interval.value};
          }
        }
      }
    }

    /** `clearRuns()`: every attached timer is cancelled, then the table is emptied. */
    method ClearRuns()
      requires Valid()
      modifies this
      ensures Valid() && nextHandle == old(nextHandle)
      ensures runs == map[]
      ensures live == old(live) - Attached(old(runs))
      ensures live == {}
    {
      var pending := runs.Keys;
      while pending != {}
        invariant pending <= runs.Keys
        invariant runs == old(runs) && nextHandle == old(nextHandle)
        invariant live == old(live) - AttachedAmong(runs, runs.Keys - pending)
        decreases pending
      {
        var id :| id in pending;
        if runs[id].interval.Some? {
          live := live - {runs[id].interval.value};
        }
        assert AttachedAmong(runs, runs.Keys - (pending - {id}))
            == AttachedAmong(runs, runs.Keys - pending) + IntervalOf(runs, id);
        pending := pending - {id};
      }
      assert AttachedAmong(runs, runs.Keys) == Attached(runs);
      runs := map[];
    }
  }

  /** The handles attached to the records of `runs` whose ids are in `ids`. */
  ghost function AttachedAmong(runs: map<RunId, RunRecord>, ids: set<RunId>): set<Handle> {
    set id | id in ids && id in runs && runs[id].interval.Some? :: runs[id].interval.value
  }

  /**
   * The table invariant on values: every handle ever attached was handed out
   * before and is attached to one run only; and every live timer is attached
   * to a record.
   */
  ghost predicate WellFormed(runs: map<RunId, RunRecord>, live: set<Handle>, nextHandle: Handle) {
    && 0 < nextHandle
    && (forall id | id in runs && runs[id].interval.Some? :: 0 < runs[id].interval.value < nextHandle)
    && (forall a, b | a in runs && b in runs && a != b && runs[a].interval.Some? ::
          runs[a].interval != runs[b].interval)
    && live <= Attached(runs)
  }

  /** Replacing one record changes the attached handles by that record's own handle only. */
  lemma AttachedAfterUpdate(runs: map<RunId, RunRecord>, id: RunId, rec: RunRecord)
    ensures Attached(runs[id := rec]) <= Attached(runs) + (if rec.interval.Some? then {rec.interval.value} else {})
    ensures Attached(runs) <= Attached(runs[id := rec]) + IntervalOf(runs, id)
    ensures rec.interval.Some? ==> rec.interval.value in Attached(runs[id := rec])
  {
    var after := runs[id := rec];
    forall h | h in Attached(after)
      ensures h in Attached(runs) + (if rec.interval.Some? then {rec.interval.value} else {})
    {
      var k :| k in after && after[k].interval.Some? && after[k].interval.value == h;
      if k != id { assert runs[k] == after[k]; }
    }
    forall h | h in Attached(runs) ensures h in Attached(after) + IntervalOf(runs, id) {
      var k :| k in runs && runs[k].interval.Some? && runs[k].interval.value == h;
      if k != id { assert after[k] == runs[k]; }
    }
    if rec.interval.Some? {
      assert after[id].interval.Some?;
    }
  }

  /** Attaching the next fresh handle to a record without a timer keeps the invariant. */
  lemma AttachKeepsWellFormed(runs: map<RunId, RunRecord>, live: set<Handle>, nextHandle: Handle, id: RunId)
    requires WellFormed(runs, live, nextHandle) && id in runs && runs[id].interval.None?
    ensures nextHandle !in live
    ensures WellFormed(runs[id := runs[id].(interval := Some(nextHandle))], live + {nextHandle}, nextHandle + 1)
  {
    var rec := runs[id].(interval := Some(nextHandle));
    AttachedAfterUpdate(runs, id, rec);
    assert nextHandle !in Attached(runs);
  }

  /** Filing a record without a timer, after cancelling the replaced record's timer, keeps the invariant. */
  lemma ReplaceKeepsWellFormed(runs: map<RunId, RunRecord>, live: set<Handle>, nextHandle: Handle, rec: RunRecord)
    requires WellFormed(runs, live, nextHandle) && rec.interval.None?
    ensures WellFormed(runs[rec.id := rec], live - IntervalOf(runs, rec.id), nextHandle)
  {
    AttachedAfterUpdate(runs, rec.id, rec);
  }

  /** A poll update keeps the record's timer (none for an untracked run), so it keeps the invariant. */
  lemma PollKeepsWellFormed(runs: map<RunId, RunRecord>, live: set<Handle>, nextHandle: Handle,
                            id: RunId, data: WorkflowRun)
    requires WellFormed(runs, live, nextHandle)
    ensures WellFormed(runs[id := PollUpdate(Stored(runs, id), data)], live, nextHandle)
  {
    AttachedAfterUpdate(runs, id, PollUpdate(Stored(runs, id), data));
  }
}

=== FILE: settings.dfy ===
/**
 * The settings the launcher page keeps in local storage (docs/app.js,
 * `persistState` and the merge in `loadStoredState`). Serialisation and the
 * storage itself are not modelled: a payload is a value.
 */
module Settings {
  import opened Common

  /** The connection settings held in `state`. */
  datatype Settings = Settings(
    testinyKey: string,
    ghToken: string,
    repo: string,
    branch: string,
    workflow: string,
    environment: string,
    remember: bool)

  /** What `persistState` stores; the two secrets only when `remember` is on. */
  datatype StoredPayload = StoredPayload(
    repo: string,
    branch: string,
    workflow: string,
    environment: string,
    remember: bool,
    testinyKey: Option<string>,
    ghToken: Option<string>)

  /** The payload `persistState` builds. */
  function PersistPayload(s: Settings): (p: StoredPayload)
    ensures p.testinyKey.Some? <==> s.remember
    ensures p.ghToken.Some? <==> s.remember
  {
    StoredPayload(s.repo, s.branch, s.workflow, s.environment, s.remember,
                  if s.remember then Some(s.testinyKey) else None,
                  if s.remember then Some(s.ghToken) else None)
  }

  /** `Object.assign(state, saved)`: each stored field overrides the current one. */
  function Restore(current: Settings, p: StoredPayload): (restored: Settings)
    ensures restored.repo == p.repo && restored.branch == p.branch && restored.workflow == p.workflow
    ensures restored.environment == p.environment && restored.remember == p.remember
    ensures restored.testinyKey == if p.testinyKey.Some? then p.testinyKey.value else current.testinyKey
    ensures restored.ghToken == if p.ghToken.Some? then p.ghToken.value else current.ghToken
  {
    Settings(p.testinyKey.GetOr(current.testinyKey), p.ghToken.GetOr(current.ghToken),
             p.repo, p.branch, p.workflow, p.environment, p.remember)
  }

  /**
   * Loading what was persisted gives back every setting; the secrets come
   * back only when `remember` was on, and otherwise the page keeps its own.
   */
  lemma PersistRestoreRoundTrip(current: Settings, s: Settings)
    ensures s.remember ==> Restore(current, PersistPayload(s)) == s
    ensures !s.remember ==>
      Restore(current, PersistPayload(s)) == s.(testinyKey := current.testinyKey, ghToken := current.ghToken)
  {
  }
}

=== FILE: strings.dfy ===
/**
 * The JavaScript string operations the core relies on: `toLowerCase`, `trim`,
 * `includes`, `String(n)` of an integer, `padStart(2, '0')` and `slice(-2)`.
 */
module Strings {

  // ---------------------------------------------------------------- case

  /**
   * `toLowerCase` on one character, restricted to the basic Latin capitals
   * A-Z and the Cyrillic capitals U+0400-U+042F. Every other capital
   * (Latin-1 and extended Latin, Cyrillic after U+042F such as U+0490,
   * Greek, ...) is left unchanged here, whereas `toLowerCase` lowers it.
   */
  function LowerChar(c: char): (r: char)
    ensures ('A' <= c <= 'Z' || '\U{0410}' <= c <= '\U{042F}') ==> r as int == c as int + 32
    ensures '\U{0400}' <= c <= '\U{040F}' ==> r as int == c as int + 80
    ensures IsUpper(c) ==> r != c && !IsUpper(r)
    ensures !IsUpper(c) ==> r == c
  {
    if 'A' <= c <= 'Z' then (c as int + 32) as char
    else if '\U{0410}' <= c <= '\U{042F}' then (c as int + 32) as char
    else if '\U{0400}' <= c <= '\U{040F}' then (c as int + 80) as char
    else c
  }

  /** The capitals `LowerChar` lowers. */
  predicate IsUpper(c: char) {
    'A' <= c <= 'Z' || '\U{0400}' <= c <= '\U{042F}'
  }

  /** `s.toLowerCase()`: every character lowered, nothing added or removed. */
  function Lower(s: string): (r: string)
    ensures |r| == |s|
    ensures forall i :: 0 <= i < |s| ==> r[i] == LowerChar(s[i])
  {
    if s == [] then [] else [LowerChar(s[0])] + Lower(s[1..])
  }

  /** Lower-casing a lower-cased string changes nothing. */
  lemma LowerIdempotent(s: string)
    ensures Lower(Lower(s)) == Lower(s)
  {
  }

  // ---------------------------------------------------------------- trim

  /** The white space and line terminators `trim` removes. */
  predicate IsSpace(c: char) {
    c == ' ' || c == '\t' || c == '\n' || c == '\r' || c == '\U{0B}' || c == '\U{0C}'
    || c == '\U{A0}' || c == '\U{1680}' || ('\U{2000}' <= c <= '\U{200A}')
    || c == '\U{2028}' || c == '\U{2029}' || c == '\U{202F}' || c == '\U{205F}'
    || c == '\U{3000}' || c == '\U{FEFF}'
  }

  /** Leading white space dropped: a suffix of `s` that starts with a non-space. */
  function TrimStart(s: string): (r: string)
    ensures |r| <= |s| && r == s[|s| - |r|..]
    ensures forall i :: 0 <= i < |s| - |r| ==> IsSpace(s[i])
    ensures r == [] || !IsSpace(r[0])
  {
    if s != [] && IsSpace(s[0]) then TrimStart(s[1..]) else s
  }

  /** Trailing white space dropped: a prefix of `s` that ends with a non-space. */
  function TrimEnd(s: string): (r: string)
    ensures |r| <= |s| && r == s[..|r|]
    ensures forall i :: |r| <= i < |s| ==> IsSpace(s[i])
    ensures r == [] || !IsSpace(r[|r| - 1])
  {
    if s != [] && IsSpace(s[|s| - 1]) then TrimEnd(s[..|s| - 1]) else s
  }

  /** `s.trim()`: a slice of `s` with only white space around it and none at its ends. */
  function Trim(s: string): (r: string)
    ensures exists lo, hi :: 0 <= lo <= hi <= |s| && r == s[lo..hi] && TrimmedAround(s, lo, hi)
    ensures r == [] || (!IsSpace(r[0]) && !IsSpace(r[|r| - 1]))
  {
    var t := TrimStart(s);
    var r := TrimEnd(t);
    var lo := |s| - |t|;
    assert s[lo..lo + |r|] == r;
    assert TrimmedAround(s, lo, lo + |r|);
    r
  }

  /** Every character of `s` outside `s[lo..hi]` is white space. */
  ghost predicate TrimmedAround(s: string, lo: nat, hi: nat)
    requires lo <= hi <= |s|
  {
    (forall i :: 0 <= i < lo ==> IsSpace(s[i])) && (forall i :: hi <= i < |s| ==> IsSpace(s[i]))
  }

  // ---------------------------------------------------------------- search

  /** `s.includes(sub)`: `sub` occurs in `s` at some position. */
  predicate Contains(s: string, sub: string): (found: bool)
    ensures sub == [] ==> found
    ensures found ==> |sub| <= |s|
    ensures sub <= s ==> found
    decreases |s|
  {
    sub <= s || (s != [] && Contains(s[1..], sub))
  }

  /** `Contains` holds exactly when `sub` is found at some index of `s`. */
  lemma {:induction false} ContainsIffOccurs(s: string, sub: string)
    ensures Contains(s, sub) <==> exists i :: 0 <= i <= |s| - |sub| && OccursAt(s, sub, i)
    decreases |s|
  {
    if sub <= s {
      assert OccursAt(s, sub, 0);
    } else if s != [] {
      ContainsIffOccurs(s[1..], sub);
      if Contains(s[1..], sub) {
        var i :| 0 <= i <= |s| - 1 - |sub| && OccursAt(s[1..], sub, i);
        assert OccursAt(s, sub, i + 1);
      }
      if exists i :: 0 <= i <= |s| - |sub| && OccursAt(s, sub, i) {
        var i :| 0 <= i <= |s| - |sub| && OccursAt(s, sub, i);
        assert i != 0;
        assert OccursAt(s[1..], sub, i - 1);
      }
    }
  }

  predicate OccursAt(s: string, sub: string, i: int) {
    0 <= i && i + |sub| <= |s| && s[i..i + |sub|] == sub
  }

  // ---------------------------------------------------------------- numbers

  function DigitChar(d: nat): (c: char)
    requires d < 10
  {
    ('0' as int + d) as char
  }

  predicate IsDigit(c: char) {
    '0' <= c <= '9'
  }

  /** `String(n)` of a non-negative integer: its decimal digits, no leading zero. */
  function DecimalString(n: nat): (r: string)
    ensures 1 <= |r|
    ensures forall i :: 0 <= i < |r| ==> IsDigit(r[i])
    ensures n >= 10 ==> r[0] != '0'
  {
    if n < 10 then [DigitChar(n)] else DecimalString(n / 10) + [DigitChar(n % 10)]
  }

  /** The number a string of decimal digits denotes. */
  function DigitsValue(s: string): nat
    requires forall i :: 0 <= i < |s| ==> IsDigit(s[i])
  {
    if s == [] then 0 else DigitsValue(s[..|s| - 1]) * 10 + DigitValue(s[|s| - 1])
  }

  function DigitValue(c: char): (d: nat)
    requires IsDigit(c)
    ensures d < 10 && DigitChar(d) == c
  {
    c as int - '0' as int
  }

  /** Reading back the digits `DecimalString` writes gives the number. */
  lemma {:induction false} DecimalStringRoundTrip(n: nat)
    ensures DigitsValue(DecimalString(n)) == n
  {
    if n >= 10 {
      var s := DecimalString(n);
      assert s[..|s| - 1] == DecimalString(n / 10);
      DecimalStringRoundTrip(n / 10);
    }
  }

  /** `String(n)` of any integer, with a minus sign for negative ones. */
  function IntString(n: int): (r: string)
    ensures n >= 0 ==> r == DecimalString(n)
    ensures n < 0 ==> r == "-" + DecimalString(-n)
    ensures n >= 0 ==> (forall i :: 0 <= i < |r| ==> IsDigit(r[i])) && DigitsValue(r) == n
    ensures n < 0 ==> r[0] == '-' && (forall i :: 1 <= i < |r| ==> IsDigit(r[i])) && DigitsValue(r[1..]) == -n
  {
    if n < 0 then
      DecimalStringRoundTrip(-n);
      var r := "-" + DecimalString(-n);
      assert r[1..] == DecimalString(-n);
      r
    else
      DecimalStringRoundTrip(n);
      DecimalString(n)
  }

  /** The number a two-character field of decimal digits denotes; -1 for anything else. */
  function TwoDigitValue(s: string): int {
    if |s| == 2 && IsDigit(s[0]) && IsDigit(s[1]) then DigitValue(s[0]) * 10 + DigitValue(s[1]) else -1
  }

  lemma TwoDigitValueIsDigitsValue(s: string)
    requires |s| == 2 && IsDigit(s[0]) && IsDigit(s[1])
    ensures TwoDigitValue(s) == DigitsValue(s)
  {
    var first := s[..1];
    assert first[..0] == [] && first[0] == s[0];
    assert DigitsValue(first) == DigitValue(s[0]);
  }

  /** `String(n).padStart(2, '0')`: two digits that read back as `n`, for `n` below 100. */
  function Pad2(n: nat): (r: string)
    ensures n < 100 ==> |r| == 2 && TwoDigitValue(r) == n
  {
    var s := DecimalString(n);
    var r := if |s| < 2 then ['0'] + s else s;
    PaddedReadsBack(n, s, r);
    r
  }

  lemma PaddedReadsBack(n: nat, s: string, r: string)
    requires s == DecimalString(n) && r == if |s| < 2 then ['0'] + s else s
    ensures n < 100 ==> |r| == 2 && TwoDigitValue(r) == n
  {
    if n < 100 {
      DecimalStringRoundTrip(n);
      if n >= 10 {
        TwoDigitValueIsDigitsValue(r);
      }
    }
  }

  /** `s.slice(-2)`: the last two characters, or all of `s` when shorter. */
  function LastTwo(s: string): (r: string)
    ensures |r| == if |s| < 2 then |s| else 2
    ensures r == s[|s| - |r|..]
  {
    if |s| < 2 then s else s[|s| - 2..]
  }

  /** The last two decimal digits of a year from 10 on denote the year modulo 100. */
  lemma YearDigits(year: int)
    requires year >= 10
    ensures var r := LastTwo(IntString(year)); |r| == 2 && TwoDigitValue(r) == year % 100
  {
    var q := year / 10;
    var s := DecimalString(year);
    assert s == DecimalString(q) + [DigitChar(year % 10)];
    var t := DecimalString(q);
    assert t[|t| - 1] == DigitChar(q % 10) by {
      if q >= 10 { assert t == DecimalString(q / 10) + [DigitChar(q % 10)]; }
    }
    var r := LastTwo(s);
    assert r == [DigitChar(q % 10), DigitChar(year % 10)];
    assert DigitValue(r[0]) == q % 10 && DigitValue(r[1]) == year % 10;
    assert year == 100 * (q / 10) + 10 * (q % 10) + year % 10;
  }
}
